=== FILE: README.md ===
# DevPulse trends popup and relay, modelled in Dafny

DevPulse shows trending GitHub repositories and recent social-media posts for
a programming language. It has two parts:

- A small relay, `api/`. For a language it asks two upstream sources and
  answers `{ github, twitter }`.
- A browser popup, `source/Popup/Popup.jsx`. It keeps each answer in
  `localStorage` for one hour under the key `trends_<language>`. It offers a
  search box that suggests known languages.

This project models the logic of both parts and proves properties about it.

- `wrappers.dfy` (`Wrappers`): `Option`, which stands for a JavaScript value that may be `undefined`.
- `sequences.dfy` (`Sequences`): the prefix and subsequence relations used by the other modules.
- `strings.dfy` (`Strings`): the string built-ins the code relies on: `toLowerCase`, `trim` and `includes`.
- `records.dfy` (`Records`): repositories, posts, and a repository's `stars` field. That field is a number, a string or missing.
- `trends.dfy` (`Trends`): `fetchGithubTrends` and `fetchTwitterTrends` as pure functions. Each takes the language and the upstream's answer; `fetchTwitterTrends` also takes the credential. Each returns the request it would send and the list it would return. `TrendsFor` is the route handler, which puts the two lists side by side.
- `repo_order.dfy` (`RepoOrder`): the popup's display order. It parses a star count after removing its commas, then sorts stably by descending count.
- `popup.dfy` (`Popup`):
  - the language list, the cache key, the freshness test and the suggestions filter;
  - `FetchAndCache`, a pure function that specifies one fetch-or-serve step;
  - `LocalStorage`, a class over a map;
  - `Component`, a class whose fields are the component's state hooks. Its methods are the handlers: the fetching ones (`FetchAndCacheTrends`, `Mount`, `HandleSuggestionClick`) are proved against `FetchAndCache`, and `Type` against `Suggestions`.

Clock readings and the answers of the network are arguments. Each model
function also says which request was issued, so "no request" can be stated
exactly.

The model follows the code as written, including these points that are easy to misread:

- A string star count is not treated as 0 when it does not parse. The code passes it to `parseInt`, which skips leading white space, reads an optional sign and then a run of digits (`"1.2k"` reads as 1, `"-5"` as -5), and gives NaN only when no digit follows. The model reads only strings made of digits and commas, and the sort requires that of every string count. A number counts as itself and a missing value as 0.
- `fetchAndCacheTrends` builds the relay URL from the language as given, without lower-casing or encoding it. Only the cache key is lower-cased. The selection handler lower-cases the name before it calls the fetch, but the first fetch on mount uses the state value `"python"`.
- A stored non-empty entry that `JSON.parse` rejects ends the call with that parse error. No request is sent and the entry is not overwritten, so that language keeps failing until the entry is removed by hand.
- After a failed fetch the old lists stay in the state. The error text replaces them on screen only because the card shows the error instead of the list.

## Model

| member | source | states |
|---|---|---|
| `Strings.ToLower` | source/Popup/Popup.jsx:11 | lower-casing keeps the length and maps each character on its own: A–Z become a–z, everything else is unchanged |
| `Strings.ToLowerIdempotent` | source/Popup/Popup.jsx:123-126 | lower-casing an already lower-cased name changes nothing |
| `Strings.TrimStart` | source/Popup/Popup.jsx:73 | the result is a suffix of the input; everything dropped is white space; the result does not start with white space |
| `Strings.TrimEnd` | source/Popup/Popup.jsx:73 | the result is a prefix of the input; everything dropped is white space; the result does not end with white space |
| `Strings.Trim` | source/Popup/Popup.jsx:73 | `trim()` gives a slice of the string that neither starts nor ends with white space and has only white space on either side of it |
| `Strings.TrimEmptyIff` | source/Popup/Popup.jsx:73 | `search.trim() === ''` holds exactly when every character is white space |
| `Strings.Contains` | source/Popup/Popup.jsx:78 | `includes` as a scan from the left; `Strings.ContainsIff` proves it finds exactly the strings that occur at some index |
| `Strings.ContainsIff` | source/Popup/Popup.jsx:78 | the substring scan succeeds exactly when the needle occurs at some index of the string |
| `Trends.FetchGithubTrends` | api/trends.js:5-17 | always requests the feed URL of the lower-cased language; on an ok answer with `items`, returns the first min(n, 5) of them in upstream order; on any failure or missing `items`, returns `[]` |
| `Trends.GithubUrl` | api/trends.js:7 | the feed document for a language: the fixed base, the lower-cased name, `.json`; `Trends.GithubUrlCaseInsensitive` proves that only the lower-cased name matters |
| `Trends.GithubUrlCaseInsensitive` | api/trends.js:7 | two languages get the same feed URL exactly when they lower-case alike |
| `Trends.FetchTwitterTrends` | api/trends.js:19-47 | with the token missing or empty: no request and `[]`; otherwise one request with query `lang + " programming lang:en"`, `max_results` 10, the three tweet fields and the `Bearer` header; returns the first min(n, 5) posts of `data.data`, or `[]` on any failure or missing `data` |
| `Trends.TwitterQuery` | api/trends.js:26 | the search text is the language as given followed by ` programming lang:en`; `Trends.TwitterQueryKeepsCase` proves its case is kept |
| `Trends.SearchRequestFor` | api/trends.js:26-35 | the search request: that query, `max_results` 10, the fields `author_id`, `created_at`, `text`, and `Bearer <token>`; `Trends.FetchTwitterTrends` states that exactly this request is sent whenever a token is set |
| `Trends.TwitterQueryKeepsCase` | api/trends.js:26 | the search query keeps the case of the language ("Rust" and "rust" differ), while the feed URL does not |
| `Trends.TruncationExact` | api/trends.js:5-47 | both sources return a list of at most five items whole, and a longer list cut to exactly its first five |
| `Trends.TrendsFor` | api/index.js:11-18 | each half of the relay's answer is exactly the first min(n, 5) items of its upstream's list when that upstream answered with one (for `twitter`, when a token is set); a missing token empties `twitter`; a failed upstream empties only its own half |
| `Trends.FailureDomainsIndependent` | api/index.js:14-17 | changing one upstream's answer leaves the other half of the relay's answer unchanged |
| `RepoOrder.StripCommas` | source/Popup/Popup.jsx:199-200 | the result has no commas and is no longer than the input |
| `RepoOrder.StripCommasKeepsTheRest` | source/Popup/Popup.jsx:199-200 | removing commas keeps every other character, as many times as it occurs and in order (a subsequence with the same multiset minus the commas) |
| `RepoOrder.StripCommasAppend` | source/Popup/Popup.jsx:199-200 | removing commas works piece by piece on a concatenation |
| `RepoOrder.DecimalValue` | source/Popup/Popup.jsx:199-200 | `parseInt(s, 10)` on a string of decimal digits, most significant first, for counts below 2^53; `RepoOrder.DecimalValueAppend` and `RepoOrder.DigitsValue` state its meaning |
| `RepoOrder.DecimalValueAppend` | source/Popup/Popup.jsx:199-200 | base-10 reading of `a + b` equals the value of `a` shifted by the length of `b`, plus the value of `b` |
| `RepoOrder.DigitsValue` | source/Popup/Popup.jsx:199-200 | reading a number's decimal digits gives the number back |
| `RepoOrder.GroupedDigits` | source/Popup/Popup.jsx:199-200 | removing the separators of the thousands-grouped form leaves a non-empty digit string whose value is the number |
| `RepoOrder.StarCount` | source/Popup/Popup.jsx:199-200 | the comparator's key, for counts below 2^53: a string count read after removing its commas, a number as itself, a missing count as 0; `RepoOrder.GroupedStarsRoundTrip` and `RepoOrder.CommaIgnored` state what it reads |
| `RepoOrder.GroupedStarsRoundTrip` | source/Popup/Popup.jsx:199-200 | for counts below 2^53, a count given as a thousands-separated string such as "1,234,567" is ranked as exactly that number |
| `RepoOrder.CommaIgnored` | source/Popup/Popup.jsx:199-200 | a comma inserted anywhere in a string count does not change its rank |
| `RepoOrder.Insert` | source/Popup/Popup.jsx:198-202 | inserting into a descending list keeps it descending and adds exactly the one element |
| `RepoOrder.SortByStars` | source/Popup/Popup.jsx:196-202 | the displayed list is a permutation of `repos` and is non-increasing by parsed stars |
| `RepoOrder.InsertStable` | source/Popup/Popup.jsx:198-201 | the inserted element goes after every element with more stars and before every element of the list with the same count, which is what makes the sort stable |
| `RepoOrder.SortByStarsStable` | source/Popup/Popup.jsx:196-202 | for every star count, the repositories with that count keep their input order, as `Array.prototype.sort` guarantees |
| `RepoOrder.SortKeepsDescending` | source/Popup/Popup.jsx:196-202 | a list already in descending order is displayed unchanged |
| `RepoOrder.SortIdempotent` | source/Popup/Popup.jsx:196-202 | re-sorting the displayed list changes nothing |
| `RepoOrder.MixedStarsExample` | source/Popup/Popup.jsx:196-202 | stars `["1,200", 300, "45", undefined]` are displayed as 1200, 300, 45, 0 |
| `Popup.CacheKey` | source/Popup/Popup.jsx:11 | the key is `trends_` followed by the name with each character lower-cased in place, so it has no upper-case letter after the prefix |
| `Popup.CacheKeyCaseInsensitive` | source/Popup/Popup.jsx:11 | two languages share a cache entry exactly when they lower-case alike |
| `Popup.CacheKeyOfLowered` | source/Popup/Popup.jsx:122-127 | selecting the lower-cased name uses the same cache entry as the name itself |
| `Popup.IsFresh` | source/Popup/Popup.jsx:91 | an entry is served while less than `CACHE_TTL` has passed since its timestamp; `Popup.FreshnessBoundary` and `Popup.ExpiryBoundary` state the boundary |
| `Popup.FreshnessBoundary` | source/Popup/Popup.jsx:9 | an entry stamped t0 is fresh at t0 + 3599999 and stale at t0 + 3600000 |
| `Popup.Matching` | source/Popup/Popup.jsx:77-79 | the filter keeps exactly the languages whose lower-cased name contains the lower-cased search, as a subsequence in the original order, each as many times as it occurs in the input |
| `Popup.Suggestions` | source/Popup/Popup.jsx:72-81 | an all-white-space search gives `[]`; any other search gives exactly the matching known languages, in list order, compared with the untrimmed search |
| `Popup.SuggestionsForPy` | source/Popup/Popup.jsx:4-6 | typing "py" suggests exactly `["Python"]` |
| `Popup.ErrorText` | source/Popup/Popup.jsx:110 | the error shown is the thrown message when it is non-empty, and a non-empty fallback otherwise |
| `Popup.FetchAndCache` | source/Popup/Popup.jsx:83-114 | loading ends false; a shown error is never empty; a request is sent exactly when the entry is missing or expired, and it goes to the relay URL for `lang`; only a delivered answer after a request writes, and only the key `trends_<lower-cased lang>` is written; no other key changes; the error is cleared exactly on a cache hit or a delivered answer |
| `Popup.CacheHit` | source/Popup/Popup.jsx:89-96 | a fresh entry: its lists (or `[]` when absent) are shown, nothing is requested, the storage is unchanged, and the relay's answer plays no part |
| `Popup.CacheMissDelivered` | source/Popup/Popup.jsx:98-108 | a missing or expired entry and a good answer: one request, the lists become `github`/`twitter` (or `[]`), and the entry is overwritten with them and stamped with the write-time clock |
| `Popup.CacheMissFailed` | source/Popup/Popup.jsx:99-113 | a missing or expired entry and a failed or non-ok answer: the error is set to the message, the old lists stay, loading ends, and the storage is unchanged |
| `Popup.UnreadableEntry` | source/Popup/Popup.jsx:89-90 | a non-empty entry that `JSON.parse` rejects: its parse error is shown, no request is sent, and the storage is unchanged |
| `Popup.ExpiryBoundary` | source/Popup/Popup.jsx:91 | for an entry stamped t0, a call at t0 + 3599999 sends no request and a call at t0 + 3600000 sends one |
| `Popup.RevisitWithinTtl` | source/Popup/Popup.jsx:83-114 | after a good answer is stored, any spelling of the same language within the hour is served from the cache with the same lists, no request, and no write |
| `Popup.RustScenario` | source/Popup/Popup.jsx:83-114 | "rust" with an empty cache asks the relay once and fills only `trends_rust`; asking again within the hour sends no request and shows the same data |
| `Popup.GithubCard` | source/Popup/Popup.jsx:190-202 | the card shows the loading text exactly while loading, otherwise the error if there is one, otherwise the repositories as a permutation in descending star order |
| `Popup.LocalStorage.GetItem` | source/Popup/Popup.jsx:89 | returns the stored slot when the key is present, and nothing otherwise |
| `Popup.LocalStorage.SetItem` | source/Popup/Popup.jsx:104-108 | overwrites exactly the one key |
| `Popup.Component.constructor` | source/Popup/Popup.jsx:62-69 | the first render: empty search and lists, "python" selected, not loading, no error |
| `Popup.Component.FetchAndCacheTrends` | source/Popup/Popup.jsx:83-114 | the state hooks and the storage end as `FetchAndCache` says, and the returned request is the one it names; search, suggestions and language are untouched |
| `Popup.Component.Mount` | source/Popup/Popup.jsx:116-120 | the mount effect is the fetch step for the language currently selected |
| `Popup.Component.Type` | source/Popup/Popup.jsx:72-81 | typing stores the text, recomputes the suggestions from it, and changes nothing else |
| `Popup.Component.HandleSuggestionClick` | source/Popup/Popup.jsx:122-127 | selects the lower-cased name, clears the search and its suggestions, and runs the fetch step for the lower-cased name |

## Left out

- Network I/O: `fetch`, `response.json()` and `response.text()` are not modelled. Their outcomes are arguments (`Trends.Upstream`, `Popup.Relay`).
- `encodeURIComponent`: the search query is modelled before encoding. The search endpoint URL itself is not modelled as a string.
- The logging calls (`console.*`) are not modelled. They do not affect any result.
- JSON serialisation is not modelled. `localStorage` is a map from key to `Slot`, where a slot is a parsed record or non-empty text that `JSON.parse` rejects. A stored empty string is not represented: the code treats it as no entry (`cachedRaw ? … : null`), fetches, and overwrites it on a delivered answer, which is exactly what the model does for an absent key. A stored value that parses to something falsy, such as `null`, is not modelled. A record without a numeric `timestamp` is not modelled either; in the code that case compares NaN and is always refetched.
- `Popup.LocalStorage.SetItem`: a write never fails. A quota error in `setItem` would set the error after the lists were already replaced, and the model does not capture that.
- Clocks: `Date.now()` is read twice. The read at line 91 is `now` and the read at line 107 is `writeNow`. Both are arguments.
- `Popup.Component.FetchAndCacheTrends`: the contract states only the state after the call has settled. The intermediate render with `loading === true` during the network wait is not stated. Two overlapping calls and their last-write-wins race are also not modelled, because calls run one at a time here.
- `Strings.ToLower`: only A–Z are lower-cased. JavaScript lower-cases all of Unicode. Every name in the language list is ASCII, but the search box takes any text, so there the model can differ: JavaScript lower-cases U+212A KELVIN SIGN to `k`, so typing it suggests `["Kotlin"]` in the code and nothing in the model. Cache keys and feed URLs for non-ASCII names differ in the same way.
- `RepoOrder.SortByStars`: requires each string star count to be non-empty digits and commas, because the model does not capture how `parseInt` reads other strings: it skips leading white space, reads an optional sign and then a run of digits (`"1.2k"` as 1, `" 12"` as 12, `"-5"` as -5), and gives NaN only when no digit follows. Strings it reads as finite numbers give consistent keys in the code. NaN makes the comparator inconsistent, and so do two counts that both read as Infinity, since Infinity − Infinity is NaN. Numeric counts are integers, so fractions and NaN numbers are not modelled. Counts are read exactly: above 2^53 the code's doubles round, so two different counts can tie and keep their input order where the model orders them strictly (for example the grouped forms of 2^53 and 2^53 + 1).
- `RepoOrder.DecimalValue`: digit strings are read as exact unbounded integers. `parseInt` returns a double, which rounds above 2^53 and becomes Infinity for strings of more than about 309 digits. No real star count comes near that.
- `RepoOrder.StarCount`: for the same reason the key is exact, while the code's key is a double that rounds above 2^53.
- `RepoOrder.GroupedStarsRoundTrip`: holds in the code only for counts below 2^53. Above that the code ranks the grouped form at the nearest double; for example 2^53 + 1 is ranked as 2^53.
- URL parsing by `fetch` is not modelled. `#`, `?` and `%` in a language change what the relay receives: selecting C# builds `…/language/c#`, `#` starts a fragment that is never sent, so the relay is asked for "c" and the popup caches C's trends under `trends_c#`. The feed URL built from "c#" in `fetchGithubTrends` is requested as `…/daily/c` in the same way. The model states the string handed to `fetch`.
- Rendering is not modelled: JSX, styles, the icon, the post card and the highlighting of the selected suggestion. The post list is shown in the order received, which needs no proof.
- Express wiring is not modelled: routing, CORS, dotenv, the port, and the `500 { error }` path in `api/index.js`. That path cannot be reached from the two sources, because each one catches its own errors. `Promise.all` running both requests at once is also left out; only the pairing of the two results is modelled.

=== FILE: popup.dfy ===
/**
 * The browser popup: the language search box with its suggestions, and the
 * fetch-or-serve-from-cache step that fills the two trend lists. The clock
 * readings and the relay's answer are arguments; `localStorage` is a map from
 * key to what is stored under it.
 */
module Popup {
  import opened Wrappers
  import Strings
  import opened Records
  import RepoOrder
  import opened Sequences

  /** The languages the search box can suggest, in the order it lists them. */
  const AllLanguages: seq<string> :=
    ["Python", "JavaScript", "TypeScript", "C++", "HTML", "Rust", "Go", "Java", "C#",
     "PHP", "Ruby", "Kotlin", "Swift", "Scala", "Shell", "Dart", "All"]

  /** How long a cached answer is served: one hour, in milliseconds. */
  const CacheTtl: int := 60 * 60 * 1000

  const CachePrefix: string := "trends_"
  const ApiPath: string := "/api/v1/trend/language/"
  /** The language selected when the popup opens. */
  const DefaultLanguage: string := "python"
  /** The message of the error thrown on a non-2xx answer from the relay. */
  const ApiFailure: string := "Failed to fetch trends from API"
  /** Shown when the caught error has an empty message. */
  const FallbackFailure: string := "Failed to fetch trends."

  /** The `localStorage` key for a language: the prefix, then the name with every letter in lower case. */
  function CacheKey(lang: string): (k: string)
    ensures |k| == |CachePrefix| + |lang| && k[..|CachePrefix|] == CachePrefix
    ensures forall i :: 0 <= i < |lang| ==> k[|CachePrefix| + i] == Strings.LowerChar(lang[i])
    ensures forall i :: |CachePrefix| <= i < |k| ==> !Strings.IsUpper(k[i])
  {
    CachePrefix + Strings.ToLower(lang)
  }

  /** Two language names share a cache entry exactly when they lower-case alike. */
  lemma CacheKeyCaseInsensitive(a: string, b: string)
    ensures CacheKey(a) == CacheKey(b) <==> Strings.ToLower(a) == Strings.ToLower(b)
  {
    var la, lb := Strings.ToLower(a), Strings.ToLower(b);
    if CacheKey(a) == CacheKey(b) {
      assert CacheKey(a)[|CachePrefix|..] == la;
      assert CacheKey(b)[|CachePrefix|..] == lb;
    }
  }

  /** Selecting the lower-cased name reads and writes the same entry as the name itself. */
  lemma CacheKeyOfLowered(lang: string)
    ensures CacheKey(Strings.ToLower(lang)) == CacheKey(lang)
  {
    Strings.ToLowerIdempotent(lang);
  }

  /** An entry written at `timestamp` is served while less than the TTL has passed. */
  predicate IsFresh(timestamp: int, now: int) {
    now - timestamp < CacheTtl
  }

  /** The last millisecond at which an entry is served, and the first at which it is not. */
  lemma FreshnessBoundary(t0: int)
    ensures IsFresh(t0, t0 + 3599999)
    ensures !IsFresh(t0, t0 + 3600000)
  {
  }

  // ---------------------------------------------------------------- suggestions

  /** `lang.toLowerCase().includes(search.toLowerCase())`. */
  predicate Matches(lang: string, search: string) {
    Strings.Contains(Strings.ToLower(lang), Strings.ToLower(search))
  }

  /** `langs.filter(lang => Matches(lang, search))`. */
  function Matching(langs: seq<string>, search: string): (r: seq<string>)
    ensures IsSubsequence(r, langs)
    ensures forall l :: l in r <==> l in langs && Matches(l, search)
    ensures forall l :: multiset(r)[l] == if Matches(l, search) then multiset(langs)[l] else 0
  {
    if langs == [] then []
    else
      var rest := Matching(langs[1..], search);
      assert langs == [langs[0]] + langs[1..];
      assert forall l :: l in langs <==> l == langs[0] || l in langs[1..];
      if Matches(langs[0], search) then
        assert ([langs[0]] + rest)[1..] == rest;
        [langs[0]] + rest
      else rest
  }

  /**
   * The suggestions effect: nothing for a search that trims to nothing, and
   * otherwise the known languages, in their order, whose lower-cased name
   * contains the lower-cased search as typed (not trimmed).
   */
  function Suggestions(search: string): (r: seq<string>)
    ensures (forall i :: 0 <= i < |search| ==> Strings.IsWhiteSpace(search[i])) ==> r == []
    ensures Strings.Trim(search) != [] ==>
              IsSubsequence(r, AllLanguages) && forall l :: l in r <==> l in AllLanguages && Matches(l, search)
  {
    Strings.TrimEmptyIff(search);
    if Strings.Trim(search) == [] then [] else Matching(AllLanguages, search)
  }

  /** No two-character window of `hay` spells `needle`, so `hay` does not contain it. */
  lemma NotContainsPair(hay: string, needle: string)
    requires |needle| == 2
    requires forall i :: 0 <= i < |hay| - 1 ==> hay[i] != needle[0] || hay[i + 1] != needle[1]
    ensures !Strings.Contains(hay, needle)
  {
    Strings.ContainsIff(hay, needle);
    forall i: nat | Strings.OccursAt(hay, needle, i)
      ensures hay[i] == needle[0] && hay[i + 1] == needle[1]
    {
      assert hay[i..i + 2][0] == hay[i] && hay[i..i + 2][1] == hay[i + 1];
    }
  }

  lemma NoMatchAfter(k: nat, search: string)
    requires k <= |AllLanguages|
    requires forall i :: k <= i < |AllLanguages| ==> !Matches(AllLanguages[i], search)
    ensures Matching(AllLanguages[k..], search) == []
  {
    var s := AllLanguages[k..];
    forall l | l in s
      ensures !Matches(l, search)
    {
      var j :| 0 <= j < |s| && s[j] == l;
      assert s[j] == AllLanguages[k + j];
    }
  }

  /** No two-character window of the lower-cased name spells "py". */
  lemma NoPy(lang: string)
    requires forall i :: 0 <= i < |lang| - 1 ==> Strings.LowerChar(lang[i]) != 'p' || Strings.LowerChar(lang[i + 1]) != 'y'
    ensures !Matches(lang, "py")
  {
    assert Strings.ToLower("py") == "py";
    NotContainsPair(Strings.ToLower(lang), "py");
  }

  /** Only "Python" of the known languages has a "py" in it. */
  lemma OnlyPythonHasPy(i: nat)
    requires 1 <= i < |AllLanguages|
    ensures !Matches(AllLanguages[i], "py")
  {
    if i <= 8 {
      FirstHalfHasNoPy(i);
    } else {
      SecondHalfHasNoPy(i);
    }
  }

  lemma FirstHalfHasNoPy(i: nat)
    requires 1 <= i <= 8
    ensures !Matches(AllLanguages[i], "py")
  {
    if i == 1 {
      assert AllLanguages[i] == "JavaScript";
      NoPy("JavaScript");
    } else if i == 2 {
      assert AllLanguages[i] == "TypeScript";
      NoPy("TypeScript");
    } else if i == 3 {
      assert AllLanguages[i] == "C++";
      NoPy("C++");
    } else if i == 4 {
      assert AllLanguages[i] == "HTML";
      NoPy("HTML");
    } else if i == 5 {
      assert AllLanguages[i] == "Rust";
      NoPy("Rust");
    } else if i == 6 {
      assert AllLanguages[i] == "Go";
      NoPy("Go");
    } else if i == 7 {
      assert AllLanguages[i] == "Java";
      NoPy("Java");
    } else {
      assert AllLanguages[i] == "C#";
      NoPy("C#");
    }
  }

  lemma SecondHalfHasNoPy(i: nat)
    requires 9 <= i <= 16
    ensures !Matches(AllLanguages[i], "py")
  {
    if i == 9 {
      assert AllLanguages[i] == "PHP";
      NoPy("PHP");
    } else if i == 10 {
      assert AllLanguages[i] == "Ruby";
      NoPy("Ruby");
    } else if i == 11 {
      assert AllLanguages[i] == "Kotlin";
      NoPy("Kotlin");
    } else if i == 12 {
      assert AllLanguages[i] == "Swift";
      NoPy("Swift");
    } else if i == 13 {
      assert AllLanguages[i] == "Scala";
      NoPy("Scala");
    } else if i == 14 {
      assert AllLanguages[i] == "Shell";
      NoPy("Shell");
    } else if i == 15 {
      assert AllLanguages[i] == "Dart";
      NoPy("Dart");
    } else {
      assert AllLanguages[i] == "All";
      NoPy("All");
    }
  }

  /** Typing "py" suggests only "Python". */
  lemma SuggestionsForPy()
    ensures Suggestions("py") == ["Python"]
  {
    var py := "py";
    assert Strings.ToLower(py) == py;
    assert Strings.Trim(py) != [] by { Strings.TrimEmptyIff(py); assert !Strings.IsWhiteSpace(py[0]); }
    assert Strings.ToLower("Python")[..2] == py;
    assert Matches("Python", py);
    forall i | 1 <= i < |AllLanguages|
      ensures !Matches(AllLanguages[i], py)
    {
      OnlyPythonHasPy(i);
    }
    NoMatchAfter(1, py);
    assert Matching(AllLanguages, py) == ["Python"] + Matching(AllLanguages[1..], py);
  }

  // ------------------------------------------------------------ fetch or serve

  /**
   * What `localStorage` holds under a cache key: a JSON record, or non-empty
   * text that `JSON.parse` rejects. A stored empty string is read as no entry,
   * so it is an absent key here.
   */
  datatype Slot =
    | Cached(github: Option<seq<Repo>>, twitter: Option<seq<Tweet>>, timestamp: int)
    | Unparsable(message: string)

  /**
   * How the request to the relay ends: the fetch or `response.json()` rejects
   * with a message, the status is not 2xx, or a body `{ github, twitter }`
   * whose fields may be absent.
   */
  datatype Relay =
    | Rejected(message: string)
    | NotOk(status: int)
    | Delivered(github: Option<seq<Repo>>, twitter: Option<seq<Tweet>>)

  /** The component state the trend cards are drawn from. */
  datatype View = View(repos: seq<Repo>, tweets: seq<Tweet>, loading: bool, error: Option<string>)

  /** After one fetch-or-serve step: the view, the storage, and the URL requested from the relay, if any. */
  datatype Step = Step(view: View, storage: map<string, Slot>, request: Option<string>)

  /** `err.message || 'Failed to fetch trends.'`. */
  function ErrorText(message: string): (t: string)
    ensures t != []
    ensures message != [] ==> t == message
  {
    if message == [] then FallbackFailure else message
  }

  /** The stored entry answers the request without the network: present, parsed, and fresh. */
  predicate ServedFromCache(storage: map<string, Slot>, key: string, now: int) {
    key in storage && storage[key].Cached? && IsFresh(storage[key].timestamp, now)
  }

  /** Neither served from cache nor stopped by an unreadable entry: the relay is asked. */
  predicate MustFetch(storage: map<string, Slot>, key: string, now: int) {
    key !in storage || (storage[key].Cached? && !IsFresh(storage[key].timestamp, now))
  }

  /**
   * `fetchAndCacheTrends(lang)` as one step, from the state before to the state
   * after the call has settled. `now` is the clock when the cache is read and
   * `writeNow` the clock when a fresh answer is stored.
   */
  function FetchAndCache(view: View, storage: map<string, Slot>, apiBase: string, lang: string,
                         now: int, response: Relay, writeNow: int): (s: Step)
    ensures !s.view.loading
    ensures s.view.error.Some? ==> s.view.error.value != []
    ensures s.request.Some? <==> MustFetch(storage, CacheKey(lang), now)
    ensures s.request.Some? ==> s.request.value == apiBase + lang
    ensures s.storage.Keys == storage.Keys + (if s.request.Some? && response.Delivered? then {CacheKey(lang)} else {})
    ensures forall k :: k in storage && k != CacheKey(lang) ==> s.storage[k] == storage[k]
    ensures !(s.request.Some? && response.Delivered?) ==> s.storage == storage
    ensures s.view.error.None? <==> ServedFromCache(storage, CacheKey(lang), now) || (s.request.Some? && response.Delivered?)
  {
    var key := CacheKey(lang);
    if key in storage && storage[key].Unparsable? then
      Step(view.(loading := false, error := Some(ErrorText(storage[key].message))), storage, None)
    else if key in storage && IsFresh(storage[key].timestamp, now) then
      var entry := storage[key];
      Step(View(entry.github.GetOr([]), entry.twitter.GetOr([]), false, None), storage, None)
    else
      var request := Some(apiBase + lang);
      match response
      case Rejected(message) =>
        Step(view.(loading := false, error := Some(ErrorText(message))), storage, request)
      case NotOk(_) =>
        Step(view.(loading := false, error := Some(ApiFailure)), storage, request)
      case Delivered(github, twitter) =>
        var repos, tweets := github.GetOr([]), twitter.GetOr([]);
        Step(View(repos, tweets, false, None), storage[key := Cached(Some(repos), Some(tweets), writeNow)], request)
  }

  /** A fresh entry is shown as stored; nothing is requested, the storage is not touched, and the answer is never looked at. */
  lemma CacheHit(view: View, storage: map<string, Slot>, apiBase: string, lang: string,
                 now: int, response: Relay, writeNow: int)
    requires ServedFromCache(storage, CacheKey(lang), now)
    ensures var entry := storage[CacheKey(lang)];
            FetchAndCache(view, storage, apiBase, lang, now, response, writeNow)
            == Step(View(entry.github.GetOr([]), entry.twitter.GetOr([]), false, None), storage, None)
  {
  }

  /** A missing or expired entry and a good answer: the answer is shown and stored, stamped `writeNow`, and no other key changes. */
  lemma CacheMissDelivered(view: View, storage: map<string, Slot>, apiBase: string, lang: string,
                           now: int, github: Option<seq<Repo>>, twitter: Option<seq<Tweet>>, writeNow: int)
    requires MustFetch(storage, CacheKey(lang), now)
    ensures var s := FetchAndCache(view, storage, apiBase, lang, now, Delivered(github, twitter), writeNow);
            && s.request == Some(apiBase + lang)
            && s.view == View(github.GetOr([]), twitter.GetOr([]), false, None)
            && s.storage == storage[CacheKey(lang) := Cached(Some(github.GetOr([])), Some(twitter.GetOr([])), writeNow)]
  {
  }

  /** A missing or expired entry and a failed request: the error is shown, the lists and the storage stay as they were. */
  lemma CacheMissFailed(view: View, storage: map<string, Slot>, apiBase: string, lang: string,
                        now: int, response: Relay, writeNow: int)
    requires MustFetch(storage, CacheKey(lang), now)
    requires !response.Delivered?
    ensures var s := FetchAndCache(view, storage, apiBase, lang, now, response, writeNow);
            && s.request == Some(apiBase + lang)
            && s.view.repos == view.repos && s.view.tweets == view.tweets
            && !s.view.loading
            && s.view.error == Some(if response.NotOk? then ApiFailure else ErrorText(response.message))
            && s.storage == storage
  {
  }

  /** A non-empty entry that `JSON.parse` rejects surfaces its parse error; nothing is requested and nothing is overwritten. */
  lemma UnreadableEntry(view: View, storage: map<string, Slot>, apiBase: string, lang: string,
                        now: int, response: Relay, writeNow: int)
    requires CacheKey(lang) in storage && storage[CacheKey(lang)].Unparsable?
    ensures var s := FetchAndCache(view, storage, apiBase, lang, now, response, writeNow);
            && s.request == None
            && s.view == view.(loading := false, error := Some(ErrorText(storage[CacheKey(lang)].message)))
            && s.storage == storage
  {
  }

  /** An entry stamped `t0` is served at `t0 + 3599999` and refetched at `t0 + 3600000`. */
  lemma ExpiryBoundary(view: View, storage: map<string, Slot>, apiBase: string, lang: string,
                       response: Relay, writeNow: int, t0: int)
    requires CacheKey(lang) in storage && storage[CacheKey(lang)].Cached? && storage[CacheKey(lang)].timestamp == t0
    ensures FetchAndCache(view, storage, apiBase, lang, t0 + 3599999, response, writeNow).request == None
    ensures FetchAndCache(view, storage, apiBase, lang, t0 + 3600000, response, writeNow).request == Some(apiBase + lang)
  {
    FreshnessBoundary(t0);
  }

  /**
   * Round trip through the cache: after a good answer has been stored, selecting
   * any spelling of the same language before the hour is up shows the same
   * lists again without a request and leaves the storage as it was.
   */
  lemma RevisitWithinTtl(view: View, storage: map<string, Slot>, apiBase: string, lang: string,
                         now: int, github: Option<seq<Repo>>, twitter: Option<seq<Tweet>>, writeNow: int,
                         view2: View, lang2: string, now2: int, response2: Relay, writeNow2: int)
    requires MustFetch(storage, CacheKey(lang), now)
    requires Strings.ToLower(lang2) == Strings.ToLower(lang)
    requires now2 - writeNow < CacheTtl
    ensures var first := FetchAndCache(view, storage, apiBase, lang, now, Delivered(github, twitter), writeNow);
            var second := FetchAndCache(view2, first.storage, apiBase, lang2, now2, response2, writeNow2);
            && second.request == None
            && second.storage == first.storage
            && second.view == first.view
  {
    CacheKeyCaseInsensitive(lang, lang2);
  }

  /**
   * Selecting "rust" with an empty cache asks the relay once and fills
   * `trends_rust`; selecting it again within the hour asks nothing and shows
   * the same data.
   */
  lemma RustScenario(view: View, apiBase: string, now: int, github: Option<seq<Repo>>, twitter: Option<seq<Tweet>>,
                     writeNow: int, now2: int, response2: Relay, writeNow2: int)
    requires now2 - writeNow < CacheTtl
    ensures var first := FetchAndCache(view, map[], apiBase, "rust", now, Delivered(github, twitter), writeNow);
            var second := FetchAndCache(first.view, first.storage, apiBase, "rust", now2, response2, writeNow2);
            && first.request == Some(apiBase + "rust")
            && first.storage.Keys == {"trends_rust"}
            && second.request == None
            && second.view == first.view
  {
    assert Strings.ToLower("rust") == "rust";
    assert CacheKey("rust") == "trends_rust";
    RevisitWithinTtl(view, map[], apiBase, "rust", now, github, twitter, writeNow,
                     FetchAndCache(view, map[], apiBase, "rust", now, Delivered(github, twitter), writeNow).view,
                     "rust", now2, response2, writeNow2);
  }

  // ------------------------------------------------------------------ rendering

  /** What the GitHub card shows: the loading text, the error, or the repository list. */
  datatype Card = LoadingText | Failure(message: string) | RepoList(repos: seq<Repo>)

  /** The GitHub card: repositories re-sorted by descending stars on every render, the stored list untouched. */
  function GithubCard(v: View): (c: Card)
    requires !v.loading && v.error.None? ==> RepoOrder.AllRankable(v.repos)
    ensures v.loading <==> c.LoadingText?
    ensures !v.loading && v.error.Some? ==> c == Failure(v.error.value)
    ensures !v.loading && v.error.None? ==> c.RepoList?
    ensures c.RepoList? ==> RepoOrder.AllRankable(c.repos) && RepoOrder.Descending(c.repos)
                            && multiset(c.repos) == multiset(v.repos)
  {
    if v.loading then LoadingText
    else if v.error.Some? then Failure(v.error.value)
    else RepoList(RepoOrder.SortByStars(v.repos))
  }

  // ------------------------------------------------------------ the component

  /** `window.localStorage`, restricted to the entries the popup reads and writes. */
  class LocalStorage {
    var items: map<string, Slot>

    constructor (items: map<string, Slot>)
      ensures this.items == items
    {
      this.items := items;
    }

    /** `getItem`: the stored slot, or nothing for a key never written. */
    function GetItem(key: string): (s: Option<Slot>)
      reads this
      ensures s.Some? <==> key in items
      ensures s.Some? ==> s.value == items[key]
    {
      if key in items then Some(items[key]) else None
    }

    /** `setItem`: overwrites the one key. */
    method SetItem(key: string, value: Slot)
      modifies this
      ensures items == old(items)[key := value]
    {
      items := items[key := value];
    }
  }

  /** The `Popup` component: its state hooks as fields, its handlers as methods. */
  class Component {
    const store: LocalStorage
    /** `${BACKEND_URL}/api/v1/trend/language/`. */
    const apiBase: string
    var search: string
    var suggestions: seq<string>
    var language: string
    var repos: seq<Repo>
    var tweets: seq<Tweet>
    var loading: bool
    var error: Option<string>

    function Current(): View
      reads this
    {
      View(repos, tweets, loading, error)
    }

    /** The first render: empty search and lists, "python" selected, not loading, no error. */
    constructor (store: LocalStorage, backendUrl: string)
      ensures this.store == store && apiBase == backendUrl + ApiPath
      ensures search == [] && suggestions == [] && language == DefaultLanguage
      ensures Current() == View([], [], false, None)
    {
      this.store := store;
      apiBase := backendUrl + ApiPath;
      search, suggestions, language := [], [], DefaultLanguage;
      repos, tweets, loading, error := [], [], false, None;
    }

    /** `fetchAndCacheTrends(lang)`, step by step; returns the URL requested from the relay, if any. */
    method FetchAndCacheTrends(lang: string, now: int, response: Relay, writeNow: int) returns (request: Option<string>)
      modifies this, store
      ensures Step(Current(), store.items, request)
              == FetchAndCache(old(Current()), old(store.items), apiBase, lang, now, response, writeNow)
      ensures search == old(search) && suggestions == old(suggestions) && language == old(language)
    {
      loading := true;
      error := None;
      var key := CacheKey(lang);
      var cached := store.GetItem(key);
      if cached.Some? && cached.value.Unparsable? {
        error := Some(ErrorText(cached.value.message));
        loading := false;
        return None;
      }
      if cached.Some? && IsFresh(cached.value.timestamp, now) {
        repos := cached.value.github.GetOr([]);
        tweets := cached.value.twitter.GetOr([]);
        loading := false;
        return None;
      }
      request := Some(apiBase + lang);
      match response {
        case Rejected(message) =>
          error := Some(ErrorText(message));
        case NotOk(_) =>
          error := Some(ApiFailure);
        case Delivered(github, twitter) =>
          repos := github.GetOr([]);
          tweets := twitter.GetOr([]);
          store.SetItem(key, Cached(Some(github.GetOr([])), Some(twitter.GetOr([])), writeNow));
      }
      loading := false;
    }

    /** The mount effect: fetch for the language selected at first render. */
    method Mount(now: int, response: Relay, writeNow: int) returns (request: Option<string>)
      modifies this, store
      ensures Step(Current(), store.items, request)
              == FetchAndCache(old(Current()), old(store.items), apiBase, old(language), now, response, writeNow)
      ensures search == old(search) && suggestions == old(suggestions) && language == old(language)
    {
      request := FetchAndCacheTrends(language, now, response, writeNow);
    }

    /** Typing into the search box: the text is stored and the suggestions effect recomputes the list. */
    method Type(text: string)
      modifies this
      ensures search == text
      ensures suggestions == Suggestions(text)
      ensures language == old(language)
      ensures Current() == old(Current())
    {
      var view := Current();
      search := text;
      assert Current() == view;
      suggestions := Suggestions(text);
    }

    /**
     * `handleSuggestionClick(lang)`: selects the lower-cased name, clears the
     * search box and its list, and fetches for the lower-cased name.
     */
    method HandleSuggestionClick(lang: string, now: int, response: Relay, writeNow: int) returns (request: Option<string>)
      modifies this, store
      ensures language == Strings.ToLower(lang) && search == [] && suggestions == []
      ensures Step(Current(), store.items, request)
              == FetchAndCache(old(Current()), old(store.items), apiBase, Strings.ToLower(lang), now, response, writeNow)
    {
      language := Strings.ToLower(lang);
      search := [];
      suggestions := [];
      request := FetchAndCacheTrends(Strings.ToLower(lang), now, response, writeNow);
    }
  }
}

=== FILE: records.dfy ===
/** The items the relay hands to the popup. */
module Records {
  import opened Wrappers

  /**
   * A repository's `stars` field as the trending feed delivers it: a number,
   * a string such as "1,200", or missing (`undefined`/`null`).
   */
  datatype Stars = Number(n: int) | Text(s: string) | Missing

  /** A trending repository; `url` identifies it. */
  datatype Repo = Repo(title: string, url: string, language: string, stars: Stars, description: string)

  /** A post returned by the social-media search. */
  datatype Tweet = Tweet(id: string, authorId: Option<string>, text: string, createdAt: string)
}

=== FILE: repo_order.dfy ===
/**
 * The order in which the popup lists repositories: a copy of the list, sorted
 * by descending star count, where a string count is parsed after its commas
 * are removed and a missing count is 0. `Array.prototype.sort` is stable, so
 * repositories with equal counts keep the order in which they arrived.
 */
module RepoOrder {
  import opened Records
  import opened Sequences

  predicate IsDigit(c: char) {
    '0' <= c <= '9'
  }

  predicate AllDigits(s: string) {
    forall i :: 0 <= i < |s| ==> IsDigit(s[i])
  }

  /** `s.replace(/,/g, '')`: the string with every comma removed and nothing else changed. */
  function StripCommas(s: string): (r: string)
    ensures ',' !in r
    ensures |r| <= |s|
  {
    if s == [] then []
    else if s[0] == ',' then StripCommas(s[1..])
    else [s[0]] + StripCommas(s[1..])
  }

  /**
   * Only commas are removed: the other characters are all kept, as many times
   * as they occur and in their order.
   */
  lemma {:induction false} StripCommasKeepsTheRest(s: string)
    ensures IsSubsequence(StripCommas(s), s)
    ensures multiset(StripCommas(s)) == multiset(s)[',' := 0]
  {
    if s != [] {
      StripCommasKeepsTheRest(s[1..]);
      var rest := StripCommas(s[1..]);
      assert s == [s[0]] + s[1..];
      if s[0] != ',' {
        assert ([s[0]] + rest)[1..] == rest;
      }
    }
  }

  lemma {:induction false} StripCommasAppend(a: string, b: string)
    ensures StripCommas(a + b) == StripCommas(a) + StripCommas(b)
  {
    if a == [] {
      assert a + b == b;
    } else {
      assert (a + b)[0] == a[0];
      assert (a + b)[1..] == a[1..] + b;
      StripCommasAppend(a[1..], b);
    }
  }

  /** A string without commas is left alone. */
  lemma {:induction false} StripCommasNoCommas(s: string)
    requires ',' !in s
    ensures StripCommas(s) == s
  {
    if s != [] {
      StripCommasNoCommas(s[1..]);
    }
  }

  function DigitValue(c: char): nat
    requires IsDigit(c)
  {
    c as int - '0' as int
  }

  /** `parseInt(s, 10)` on a string made of decimal digits only, read most significant digit first. */
  function DecimalValue(s: string): nat
    requires AllDigits(s)
  {
    if s == [] then 0 else 10 * DecimalValue(s[..|s| - 1]) + DigitValue(s[|s| - 1])
  }

  function Pow10(k: nat): nat {
    if k == 0 then 1 else 10 * Pow10(k - 1)
  }

  /** Reading `a` then `b` is reading `a`, shifting it past the digits of `b`, and adding `b`. */
  lemma {:induction false} DecimalValueAppend(a: string, b: string)
    requires AllDigits(a) && AllDigits(b)
    ensures AllDigits(a + b)
    ensures DecimalValue(a + b) == DecimalValue(a) * Pow10(|b|) + DecimalValue(b)
  {
    assert AllDigits(a + b);
    if b == [] {
      assert a + b == a;
    } else {
      var b' := b[..|b| - 1];
      var c := b[|b| - 1];
      assert a + b == (a + b') + [c];
      assert AllDigits(a + b');
      DecimalValueAppend(a, b');
      LastDigit(a + b', c);
      LastDigit(b', c);
      assert b' + [c] == b;
      Shift(DecimalValue(a), Pow10(|b'|), DecimalValue(b'), DigitValue(c));
    }
  }

  lemma LastDigit(s: string, c: char)
    requires AllDigits(s) && IsDigit(c)
    ensures AllDigits(s + [c])
    ensures DecimalValue(s + [c]) == 10 * DecimalValue(s) + DigitValue(c)
  {
    assert (s + [c])[..|s|] == s;
  }

  lemma Shift(va: int, p: int, vb: int, d: int)
    ensures 10 * (va * p + vb) + d == va * (10 * p) + (10 * vb + d)
  {
  }

  /** The decimal digits of `n`, without leading zeros ("0" for zero). */
  function Digits(n: nat): (s: string)
    ensures AllDigits(s) && s != []
    decreases n
  {
    var d := [DigitChar(n % 10)];
    if n < 10 then d else Digits(n / 10) + d
  }

  /** `Digits(n)` padded with zeros on the left to exactly three characters. */
  function Pad3(n: nat): (s: string)
    requires n < 1000
    ensures AllDigits(s) && |s| == 3
  {
    [DigitChar(n / 100), DigitChar(n / 10 % 10), DigitChar(n % 10)]
  }

  function DigitChar(d: nat): (c: char)
    requires d < 10
    ensures IsDigit(c) && DigitValue(c) == d
  {
    '0' + d as char
  }

  /** The trending feed's thousands-separated form of a count, such as "1,234,567". */
  function Grouped(n: nat): (s: string)
    ensures s != []
    decreases n
  {
    if n < 1000 then Digits(n) else Grouped(n / 1000) + "," + Pad3(n % 1000)
  }

  lemma {:induction false} DigitsValue(n: nat)
    ensures DecimalValue(Digits(n)) == n
    decreases n
  {
    var d := [DigitChar(n % 10)];
    if n >= 10 {
      DigitsValue(n / 10);
      DecimalValueAppend(Digits(n / 10), d);
    }
  }

  lemma Pad3Value(n: nat)
    requires n < 1000
    ensures DecimalValue(Pad3(n)) == n
  {
    var s := Pad3(n);
    assert s[..2][..1] == s[..1];
    assert DecimalValue(s[..1]) == n / 100;
    assert DecimalValue(s[..2]) == 10 * (n / 100) + n / 10 % 10;
  }

  /** Removing the separators from the grouped form leaves a digit string worth `n`. */
  lemma {:induction false} GroupedDigits(n: nat)
    ensures AllDigits(StripCommas(Grouped(n)))
    ensures StripCommas(Grouped(n)) != []
    ensures DecimalValue(StripCommas(Grouped(n))) == n
    decreases n
  {
    if n < 1000 {
      StripCommasNoCommas(Digits(n));
      DigitsValue(n);
    } else {
      var hi, lo := Grouped(n / 1000), Pad3(n % 1000);
      GroupedDigits(n / 1000);
      StripCommasAppend(hi + ",", lo);
      StripCommasAppend(hi, ",");
      StripCommasNoCommas(lo);
      var w := StripCommas(hi);
      assert StripCommas(Grouped(n)) == w + lo;
      assert AllDigits(w + lo) by {
        assert forall i :: 0 <= i < |w + lo| ==> (w + lo)[i] == if i < |w| then w[i] else lo[i - |w|];
      }
      DecimalValueAppend(w, lo);
      Pad3Value(n % 1000);
      assert Pow10(|lo|) == 1000 by {
        assert Pow10(1) == 10 && Pow10(2) == 100;
      }
      assert DecimalValue(w + lo) == (n / 1000) * 1000 + n % 1000;
    }
  }

  /**
   * The star values the comparator can rank: numbers, missing values, and
   * strings that are decimal digits once their commas are removed.
   */
  predicate Rankable(st: Stars) {
    st.Text? ==> StripCommas(st.s) != [] && AllDigits(StripCommas(st.s))
  }

  predicate AllRankable(repos: seq<Repo>) {
    forall i :: 0 <= i < |repos| ==> Rankable(repos[i].stars)
  }

  /** The comparator's key: `typeof stars === 'string' ? parseInt(stars.replace(/,/g, ''), 10) : stars || 0`. */
  function StarCount(st: Stars): int
    requires Rankable(st)
  {
    match st
    case Text(s) => DecimalValue(StripCommas(s))
    case Number(n) => n
    case Missing => 0
  }

  /** A count the feed formats with thousands separators is read back exactly. */
  lemma GroupedStarsRoundTrip(n: nat)
    ensures Rankable(Text(Grouped(n)))
    ensures StarCount(Text(Grouped(n))) == n
  {
    GroupedDigits(n);
  }

  /** Commas anywhere in a string count do not change its value. */
  lemma CommaIgnored(a: string, b: string)
    requires Rankable(Text(a + b))
    ensures Rankable(Text(a + "," + b))
    ensures StarCount(Text(a + "," + b)) == StarCount(Text(a + b))
  {
    StripCommasAppend(a + ",", b);
    StripCommasAppend(a, ",");
    StripCommasAppend(a, b);
    assert StripCommas(",") == [];
    assert StripCommas(a + "," + b) == StripCommas(a + b);
  }

  /** Non-increasing by star count: the order `(a, b) => bStars - aStars` asks for. */
  predicate Descending(s: seq<Repo>)
    requires AllRankable(s)
  {
    forall i, j :: 0 <= i < j < |s| ==> StarCount(s[i].stars) >= StarCount(s[j].stars)
  }

  /** Putting in front a repository with at least as many stars as the head keeps the order. */
  lemma DescendingCons(h: Repo, t: seq<Repo>)
    requires Rankable(h.stars) && AllRankable(t) && Descending(t)
    requires t == [] || StarCount(h.stars) >= StarCount(t[0].stars)
    ensures AllRankable([h] + t) && Descending([h] + t)
  {
    var s := [h] + t;
    assert AllRankable(s);
    forall i, j | 0 <= i < j < |s|
      ensures StarCount(s[i].stars) >= StarCount(s[j].stars)
    {
      if i > 0 {
        assert s[i] == t[i - 1] && s[j] == t[j - 1];
      } else if j > 1 {
        assert s[j] == t[j - 1];
      }
    }
  }

  /** Places `x` after every repository with more stars and before the first one with as many or fewer. */
  function Insert(x: Repo, s: seq<Repo>): (r: seq<Repo>)
    requires Rankable(x.stars) && AllRankable(s) && Descending(s)
    ensures AllRankable(r) && Descending(r)
    ensures multiset(r) == multiset(s) + multiset{x}
    ensures r != [] && (r[0] == x || (s != [] && r[0] == s[0]))
  {
    if s == [] || StarCount(x.stars) >= StarCount(s[0].stars) then
      DescendingCons(x, s);
      [x] + s
    else
      var t := Insert(x, s[1..]);
      assert s == [s[0]] + s[1..];
      assert |s| > 1 ==> StarCount(s[0].stars) >= StarCount(s[1].stars);
      DescendingCons(s[0], t);
      [s[0]] + t
  }

  /** `repos.slice().sort(...)`: the list the popup renders. */
  function SortByStars(repos: seq<Repo>): (r: seq<Repo>)
    requires AllRankable(repos)
    ensures AllRankable(r) && Descending(r)
    ensures multiset(r) == multiset(repos)
  {
    if repos == [] then []
    else
      assert repos == [repos[0]] + repos[1..];
      Insert(repos[0], SortByStars(repos[1..]))
  }

  /** The repositories of `s` whose star count is `k`, in the order of `s`. */
  function WithStars(s: seq<Repo>, k: int): seq<Repo>
    requires AllRankable(s)
  {
    if s == [] then []
    else (if StarCount(s[0].stars) == k then [s[0]] else []) + WithStars(s[1..], k)
  }

  /**
   * Among the repositories with any one star count, the inserted one comes
   * first: it goes before those of `s` with the same count. Since the sort
   * inserts each repository into the sorted rest of the list, that is what
   * keeps equal counts in their input order.
   */
  lemma {:induction false} InsertStable(x: Repo, s: seq<Repo>, k: int)
    requires Rankable(x.stars) && AllRankable(s) && Descending(s)
    ensures WithStars(Insert(x, s), k) == WithStars([x] + s, k)
  {
    if s != [] && StarCount(x.stars) < StarCount(s[0].stars) {
      var t := Insert(x, s[1..]);
      var w := WithStars(s[1..], k);
      var hx := if StarCount(x.stars) == k then [x] else [];
      var h0 := if StarCount(s[0].stars) == k then [s[0]] else [];
      assert ([s[0]] + t)[1..] == t;
      assert ([x] + s[1..])[1..] == s[1..];
      assert ([x] + s)[1..] == s;
      InsertStable(x, s[1..], k);
      assert WithStars(Insert(x, s), k) == h0 + (hx + w);
      assert WithStars([x] + s, k) == hx + (h0 + w);
      assert h0 == [] || hx == [];
    }
  }

  /**
   * The sort is stable: for every star count, the repositories with that count
   * appear in the same relative order as in the input.
   */
  lemma {:induction false} SortByStarsStable(repos: seq<Repo>, k: int)
    requires AllRankable(repos)
    ensures WithStars(SortByStars(repos), k) == WithStars(repos, k)
  {
    if repos != [] {
      var rest := SortByStars(repos[1..]);
      SortByStarsStable(repos[1..], k);
      InsertStable(repos[0], rest, k);
      assert ([repos[0]] + rest)[1..] == rest;
    }
  }

  /** Star counts of a list, in order. */
  function Counts(s: seq<Repo>): (c: seq<int>)
    requires AllRankable(s)
    ensures |c| == |s|
  {
    if s == [] then [] else [StarCount(s[0].stars)] + Counts(s[1..])
  }

  function RepoWith(stars: Stars): Repo {
    Repo("", "", "", stars, "")
  }

  /** The string counts of the example below, read as the comparator reads them. */
  lemma ExampleCounts()
    ensures Rankable(Text("1,200")) && StarCount(Text("1,200")) == 1200
    ensures Rankable(Text("45")) && StarCount(Text("45")) == 45
  {
    ExampleStrip();
    ExampleValues();
  }

  lemma ExampleStrip()
    ensures StripCommas("1,200") == "1200" && StripCommas("45") == "45"
  {
    assert "1,200"[1..] == ",200" && ",200"[1..] == "200";
    StripCommasNoCommas("200");
    StripCommasNoCommas("45");
  }

  lemma ExampleValues()
    ensures DecimalValue("1200") == 1200 && DecimalValue("45") == 45
  {
    assert DecimalValue("1") == 1;
    assert DecimalValue("12") == 12 by { assert "12"[..1] == "1"; }
    assert DecimalValue("120") == 120 by { assert "120"[..2] == "12"; }
    assert DecimalValue("1200") == 1200 by { assert "1200"[..3] == "120"; }
    assert DecimalValue("45") == 45 by { assert "45"[..1] == "4"; }
  }

  /** The repositories of the example below: stars `["1,200", 300, "45", undefined]`. */
  function Example(): seq<Repo> {
    [RepoWith(Text("1,200")), RepoWith(Number(300)), RepoWith(Text("45")), RepoWith(Missing)]
  }

  /** A list already in descending order is left as it is. */
  lemma {:induction false} SortKeepsDescending(s: seq<Repo>)
    requires AllRankable(s) && Descending(s)
    ensures SortByStars(s) == s
  {
    if s != [] {
      assert AllRankable(s[1..]) && Descending(s[1..]) by {
        forall i, j | 0 <= i < j < |s[1..]|
          ensures StarCount(s[1..][i].stars) >= StarCount(s[1..][j].stars)
        {
          assert s[1..][i] == s[i + 1] && s[1..][j] == s[j + 1];
        }
      }
      SortKeepsDescending(s[1..]);
      assert [s[0]] + s[1..] == s;
    }
  }

  /** Sorting twice is sorting once. */
  lemma SortIdempotent(s: seq<Repo>)
    requires AllRankable(s)
    ensures SortByStars(SortByStars(s)) == SortByStars(s)
  {
    SortKeepsDescending(SortByStars(s));
  }

  lemma ExampleAlreadyOrdered()
    ensures AllRankable(Example()) && SortByStars(Example()) == Example()
  {
    ExampleCounts();
    var all := Example();
    assert AllRankable(all);
    assert StarCount(all[0].stars) == 1200 && StarCount(all[1].stars) == 300;
    assert StarCount(all[2].stars) == 45 && StarCount(all[3].stars) == 0;
    SortKeepsDescending(all);
  }

  lemma ExampleCountsInOrder()
    ensures AllRankable(Example()) && Counts(Example()) == [1200, 300, 45, 0]
  {
    ExampleCounts();
    var all := Example();
    assert all[1..][1..][1..][1..] == [];
  }

  /** `["1,200", 300, "45", undefined]` is listed as 1200, 300, 45, 0. */
  lemma MixedStarsExample()
    ensures AllRankable(Example()) && Counts(SortByStars(Example())) == [1200, 300, 45, 0]
  {
    ExampleAlreadyOrdered();
    ExampleCountsInOrder();
  }
}

=== FILE: sequences.dfy ===
/** Relations between sequences shared by the string, relay and popup models. */
module Sequences {

  /** `p` is an initial segment of `s`. */
  predicate IsPrefix<T(==)>(p: seq<T>, s: seq<T>) {
    |p| <= |s| && s[..|p|] == p
  }

  /** `r` is `s` with some elements left out, the rest in their original order. */
  predicate IsSubsequence<T(==)>(r: seq<T>, s: seq<T>)
    decreases |s|
  {
    r == [] || (s != [] && ((r[0] == s[0] && IsSubsequence(r[1..], s[1..])) || IsSubsequence(r, s[1..])))
  }
}

=== FILE: strings.dfy ===
/**
 * The JavaScript string operations the popup and the relay rely on:
 * `toLowerCase`, `trim` and `includes`, on strings as sequences of characters.
 */
module Strings {
  import opened Sequences

  predicate IsUpper(c: char) {
    'A' <= c <= 'Z'
  }

  /** Lower-cases one character of the ASCII range; every other character is kept. */
  function LowerChar(c: char): (d: char)
    ensures !IsUpper(d)
    ensures IsUpper(c) ==> d as int == c as int + 32
    ensures !IsUpper(c) ==> d == c
  {
    if IsUpper(c) then (c as int + 32) as char else c
  }

  /** `String.prototype.toLowerCase`, character by character. */
  function ToLower(s: string): (r: string)
    ensures |r| == |s|
    ensures forall i :: 0 <= i < |s| ==> r[i] == LowerChar(s[i])
  {
    if s == [] then [] else [LowerChar(s[0])] + ToLower(s[1..])
  }

  /** Lower-casing twice is lower-casing once. */
  lemma ToLowerIdempotent(s: string)
    ensures ToLower(ToLower(s)) == ToLower(s)
  {
    var t := ToLower(s);
    assert forall i :: 0 <= i < |t| ==> ToLower(t)[i] == t[i];
  }

  /**
   * The characters `String.prototype.trim` removes: the white space and line
   * terminators of section 12.2 and 12.3 of ECMA-262.
   */
  predicate IsWhiteSpace(c: char) {
    || c == '\t' || c == '\n' || c == '\U{000B}' || c == '\U{000C}' || c == '\r'
    || c == ' ' || c == '\U{00A0}' || c == '\U{1680}'
    || ('\U{2000}' <= c <= '\U{200A}')
    || c == '\U{2028}' || c == '\U{2029}' || c == '\U{202F}' || c == '\U{205F}'
    || c == '\U{3000}' || c == '\U{FEFF}'
  }

  /** Drops leading white space: what is left is a suffix that does not start with it. */
  function TrimStart(s: string): (r: string)
    ensures |r| <= |s| && r == s[|s| - |r|..]
    ensures forall i :: 0 <= i < |s| - |r| ==> IsWhiteSpace(s[i])
    ensures r == [] || !IsWhiteSpace(r[0])
  {
    if s != [] && IsWhiteSpace(s[0]) then TrimStart(s[1..]) else s
  }

  /** Drops trailing white space: what is left is a prefix that does not end with it. */
  function TrimEnd(s: string): (r: string)
    ensures |r| <= |s| && r == s[..|r|]
    ensures forall i :: |r| <= i < |s| ==> IsWhiteSpace(s[i])
    ensures r == [] || !IsWhiteSpace(r[|r| - 1])
  {
    if s != [] && IsWhiteSpace(s[|s| - 1]) then TrimEnd(s[..|s| - 1]) else s
  }

  /** `r` sits in `s` at index `i` with only white space before and after it. */
  predicate PaddedAt(s: string, r: string, i: int) {
    0 <= i <= |s| - |r| && r == s[i..i + |r|]
    && (forall k :: 0 <= k < i ==> IsWhiteSpace(s[k]))
    && (forall k :: i + |r| <= k < |s| ==> IsWhiteSpace(s[k]))
  }

  /**
   * `String.prototype.trim`: a slice of `s` that neither starts nor ends with
   * white space, with only white space on either side of it.
   */
  function Trim(s: string): (r: string)
    ensures r == [] || (!IsWhiteSpace(r[0]) && !IsWhiteSpace(r[|r| - 1]))
    ensures exists i :: PaddedAt(s, r, i)
  {
    PaddedAround(s, TrimStart(s), TrimEnd(TrimStart(s)));
    TrimEnd(TrimStart(s))
  }

  /** A prefix `r` of a suffix `t` of `s`, with white space before `t` and after `r` in `t`, sits in `s` padded by white space. */
  lemma PaddedAround(s: string, t: string, r: string)
    requires |t| <= |s| && t == s[|s| - |t|..]
    requires forall k :: 0 <= k < |s| - |t| ==> IsWhiteSpace(s[k])
    requires |r| <= |t| && r == t[..|r|]
    requires forall k :: |r| <= k < |t| ==> IsWhiteSpace(t[k])
    ensures PaddedAt(s, r, |s| - |t|)
  {
    SliceOfSuffix(s, t, r);
    TailOfSuffix(s, t, |r|);
  }

  /** A prefix of a suffix of `s` is a slice of `s`. */
  lemma SliceOfSuffix(s: string, t: string, r: string)
    requires |t| <= |s| && t == s[|s| - |t|..]
    requires |r| <= |t| && r == t[..|r|]
    ensures r == s[|s| - |t|..|s| - |t| + |r|]
  {
  }

  /** White space ending a suffix of `s` ends `s` too. */
  lemma TailOfSuffix(s: string, t: string, n: nat)
    requires |t| <= |s| && t == s[|s| - |t|..] && n <= |t|
    requires forall k :: n <= k < |t| ==> IsWhiteSpace(t[k])
    ensures forall k :: |s| - |t| + n <= k < |s| ==> IsWhiteSpace(s[k])
  {
    forall k | |s| - |t| + n <= k < |s|
      ensures IsWhiteSpace(s[k])
    {
      assert s[k] == t[k - (|s| - |t|)];
    }
  }

  /** A string trims to the empty string exactly when every character of it is white space. */
  lemma TrimEmptyIff(s: string)
    ensures Trim(s) == [] <==> forall i :: 0 <= i < |s| ==> IsWhiteSpace(s[i])
  {
    var t := TrimStart(s);
    if t != [] {
      assert !IsWhiteSpace(s[|s| - |t|]);
    }
  }

  /** `needle` occurs in `hay` starting at index `i`. */
  predicate OccursAt(hay: string, needle: string, i: nat) {
    i + |needle| <= |hay| && hay[i..i + |needle|] == needle
  }

  /** `String.prototype.includes`, as a left-to-right scan. */
  predicate Contains(hay: string, needle: string)
    decreases |hay|
  {
    IsPrefix(needle, hay) || (hay != [] && Contains(hay[1..], needle))
  }

  /** The scan finds `needle` exactly when it occurs at some index of `hay`. */
  lemma {:induction false} ContainsIff(hay: string, needle: string)
    ensures Contains(hay, needle) <==> exists i: nat :: OccursAt(hay, needle, i)
    decreases |hay|
  {
    if IsPrefix(needle, hay) {
      assert OccursAt(hay, needle, 0);
    } else if hay == [] {
      assert forall i: nat :: !OccursAt(hay, needle, i);
    } else {
      ContainsIff(hay[1..], needle);
      if Contains(hay[1..], needle) {
        var i: nat :| OccursAt(hay[1..], needle, i);
        assert hay[i + 1..i + 1 + |needle|] == hay[1..][i..i + |needle|];
        assert OccursAt(hay, needle, i + 1);
      } else {
        forall i: nat | 0 < i && OccursAt(hay, needle, i)
          ensures OccursAt(hay[1..], needle, i - 1)
        {
          assert hay[1..][i - 1..i - 1 + |needle|] == hay[i..i + |needle|];
        }
        assert !OccursAt(hay, needle, 0);
      }
    }
  }
}

=== FILE: trends.dfy ===
/**
 * The relay's two upstream sources. Each turns the upstream's answer into a
 * list of at most five items and absorbs every failure into the empty list.
 * The network call is not modelled: its outcome is an argument, and each
 * function reports the request it would issue.
 */
module Trends {
  import opened Wrappers
  import Strings
  import opened Sequences

  /** How many items either source keeps: `.slice(0, 5)`. */
  const MaxItems: nat := 5

  const GithubDailyBase: string := "https://raw.githubusercontent.com/isboyjc/github-trending-api/main/data/daily/"
  const GithubSuffix: string := ".json"

  const QuerySuffix: string := " programming lang:en"
  /** `max_results=10`: the search asks for ten posts and keeps five. */
  const SearchMaxResults: nat := 10
  const TweetFields: seq<string> := ["author_id", "created_at", "text"]

  /**
   * What an upstream request comes back with: the fetch rejects, the status
   * is not 2xx, the body cannot be read as the expected JSON object (including
   * `response.json()` rejecting), or a body whose item list (`items` for the
   * feed, `data` for the search) is present or absent.
   */
  datatype Upstream<T> =
    | NetworkError(message: string)
    | HttpError(status: int, statusText: string)
    | MalformedBody
    | Payload(items: Option<seq<T>>)

  /** The request a source issued, if any, and the list it returned. */
  datatype Call<Q, T> = Call(request: Option<Q>, items: seq<T>)

  /** A search request: the query text before URL encoding, the result count, the fields, and the bearer header. */
  datatype SearchRequest = SearchRequest(query: string, maxResults: nat, tweetFields: seq<string>, authorization: string)

  function Min(a: int, b: int): int {
    if a <= b then a else b
  }

  /** The feed document for a language: always the lower-cased name. */
  function GithubUrl(lang: string): string {
    GithubDailyBase + Strings.ToLower(lang) + GithubSuffix
  }

  /** `fetchGithubTrends`: the first five `items` of a successful answer, `[]` otherwise. */
  function FetchGithubTrends<T(==)>(lang: string, response: Upstream<T>): (c: Call<string, T>)
    ensures c.request == Some(GithubUrl(lang))
    ensures |c.items| <= MaxItems
    ensures response.Payload? && response.items.Some? ==>
              IsPrefix(c.items, response.items.value) && |c.items| == Min(|response.items.value|, MaxItems)
    ensures !(response.Payload? && response.items.Some?) ==> c.items == []
  {
    var items :=
      match response
      case Payload(list) => var all := list.GetOr([]); all[..Min(|all|, MaxItems)]
      case _ => [];
    Call(Some(GithubUrl(lang)), items)
  }

  /** The search text: the language exactly as given, not lower-cased. */
  function TwitterQuery(lang: string): string {
    lang + QuerySuffix
  }

  function SearchRequestFor(lang: string, token: string): SearchRequest {
    SearchRequest(TwitterQuery(lang), SearchMaxResults, TweetFields, "Bearer " + token)
  }

  /** `!BEARER_TOKEN`: the credential is unset or empty. */
  predicate MissingToken(token: Option<string>) {
    token.None? || token.value == []
  }

  /**
   * `fetchTwitterTrends`: with no credential, `[]` and no request; otherwise
   * the first five posts of `data.data` of a successful answer, `[]` otherwise.
   */
  function FetchTwitterTrends<T(==)>(lang: string, token: Option<string>, response: Upstream<T>): (c: Call<SearchRequest, T>)
    ensures c.request.None? <==> MissingToken(token)
    ensures c.request.Some? ==> c.request.value == SearchRequestFor(lang, token.value)
    ensures |c.items| <= MaxItems
    ensures MissingToken(token) ==> c.items == []
    ensures !MissingToken(token) && response.Payload? && response.items.Some? ==>
              IsPrefix(c.items, response.items.value) && |c.items| == Min(|response.items.value|, MaxItems)
    ensures !(response.Payload? && response.items.Some?) ==> c.items == []
  {
    if MissingToken(token) then Call(None, [])
    else
      var items :=
        match response
        case Payload(data) => if data.Some? then data.value[..Min(|data.value|, MaxItems)] else []
        case _ => [];
      Call(Some(SearchRequestFor(lang, token.value)), items)
  }

  /** Only the lower-cased language reaches the feed: two names share a document exactly when they lower-case alike. */
  lemma GithubUrlCaseInsensitive(a: string, b: string)
    ensures GithubUrl(a) == GithubUrl(b) <==> Strings.ToLower(a) == Strings.ToLower(b)
  {
    var la, lb := Strings.ToLower(a), Strings.ToLower(b);
    if GithubUrl(a) == GithubUrl(b) {
      var n := |GithubDailyBase|;
      assert GithubUrl(a)[n..n + |la|] == la;
      assert GithubUrl(b)[n..n + |lb|] == lb;
    }
  }

  /** The search keeps the case of the name: "Rust" and "rust" lead to different queries but to the same feed document. */
  lemma TwitterQueryKeepsCase()
    ensures TwitterQuery("Rust") != TwitterQuery("rust")
    ensures GithubUrl("Rust") == GithubUrl("rust")
  {
    assert TwitterQuery("Rust")[0] != TwitterQuery("rust")[0];
    assert Strings.ToLower("Rust") == Strings.ToLower("rust");
    GithubUrlCaseInsensitive("Rust", "rust");
  }

  /** The five-item cut keeps a short list whole and a long one to exactly its first five. */
  lemma TruncationExact<T>(items: seq<T>, lang: string, token: Option<string>)
    ensures |items| <= MaxItems ==> FetchGithubTrends(lang, Payload(Some(items))).items == items
    ensures |items| > MaxItems ==> FetchGithubTrends(lang, Payload(Some(items))).items == items[..MaxItems]
    ensures !MissingToken(token) && |items| <= MaxItems ==> FetchTwitterTrends(lang, token, Payload(Some(items))).items == items
    ensures !MissingToken(token) && |items| > MaxItems ==> FetchTwitterTrends(lang, token, Payload(Some(items))).items == items[..MaxItems]
  {
  }

  /** The relay's answer `{ github, twitter }`: the two sources' lists, side by side. */
  datatype Body<R, W> = Body(github: seq<R>, twitter: seq<W>)

  /**
   * The route handler: both sources run on the same language and their
   * results are paired. Neither source can fail, so neither affects the other.
   */
  function TrendsFor<R(==), W(==)>(lang: string, token: Option<string>, github: Upstream<R>, twitter: Upstream<W>): (b: Body<R, W>)
    ensures |b.github| <= MaxItems && |b.twitter| <= MaxItems
    ensures MissingToken(token) ==> b.twitter == []
    ensures !(github.Payload? && github.items.Some?) ==> b.github == []
    ensures !(twitter.Payload? && twitter.items.Some?) ==> b.twitter == []
    ensures github.Payload? && github.items.Some? ==>
              IsPrefix(b.github, github.items.value) && |b.github| == Min(|github.items.value|, MaxItems)
    ensures !MissingToken(token) && twitter.Payload? && twitter.items.Some? ==>
              IsPrefix(b.twitter, twitter.items.value) && |b.twitter| == Min(|twitter.items.value|, MaxItems)
  {
    Body(FetchGithubTrends(lang, github).items, FetchTwitterTrends(lang, token, twitter).items)
  }

  /** One source's outage leaves the other source's half of the answer as it was. */
  lemma FailureDomainsIndependent<R, W>(lang: string, token: Option<string>,
                                  github: Upstream<R>, twitter: Upstream<W>,
                                  otherTwitter: Upstream<W>, otherGithub: Upstream<R>)
    ensures TrendsFor(lang, token, github, twitter).github == TrendsFor(lang, token, github, otherTwitter).github
    ensures TrendsFor(lang, token, github, twitter).twitter == TrendsFor(lang, token, otherGithub, twitter).twitter
  {
  }
}

=== FILE: wrappers.dfy ===
/** Optional values: JavaScript's `undefined`/absent field, as a datatype. */
module Wrappers {

  datatype Option<+T> = None | Some(value: T) {

    /** The value, or `default` when absent (the `x || []` idiom on arrays). */
    function GetOr(default: T): T {
      match this
      case Some(v) => v
      case None => default
    }
  }
}
